=== FILE: README.md ===
# Limit-up stock filter, modelled in Dafny

This project models `filter_stocks` from `LearnNotes/gupiao/zt_filter_strategy.py`.
The function takes a day's snapshot of stocks that hit their upward price limit
(limit-up). It keeps the first-board stocks that are cheap, small and often
limit-up, and returns them in report order.

It works in five steps:

1. **Column resolution.** Price, market cap, streak length (consecutive
   limit-up days) and half-year limit-up count are each bound to the first of
   their candidate column names that the table has.
2. **Composite count.** When the count comes from the "total/half-year" column
   `涨停统计`, the half-year part is parsed into a new column. Every failure
   gives 0.
3. **Short circuit.** If any of the four fields is unresolved, every row is
   returned projected to code and name, without filtering.
4. **Coercion and units.** Cells are coerced to numbers, and bad cells become
   NaN. If the largest market cap is over 1000, the cap column is in yuan, so
   it is divided by 1e8 to give hundred-million yuan.
5. **Filter and sort.** Five conditions are ANDed: price < 30, cap < 200,
   half-year count ≥ 3, streak < 4 and streak == 1. The result is projected,
   renamed and sorted by count descending, streak descending, then cap
   ascending.

## Layout

| file | module | contents |
|---|---|---|
| `frame.dfy` | `Frame` | `Option`, cells (`Null` / `Num` / `Text`), rows as maps from column name to cell, tables, `df.empty` |
| `numeric.dfy` | `Numeric` | simplified `int()` / `float()` on text, truncation toward zero, `to_numeric(errors="coerce")`, the composite-count parser |
| `columns.dfy` | `Columns` | candidate column lists and first-present resolution |
| `stocks.dfy` | `Stocks` | the coerced `Stock` row, the five-way predicate, the column maximum, unit normalisation, the mask |
| `ordering.dfy` | `Ordering` | the three-key order (NaN last), insertion sort as a sorted permutation |
| `strategy.dfy` | `Strategy` | `FilterStocks` and its outcomes, and the rendering of an outcome back to a table |
| `properties.dfy` | `Properties` | the short circuit, completeness, the row-to-candidate relation, idempotence |
| `scenarios.dfy` | `Scenarios` | concrete cases: parser inputs, normaliser columns, the sort example, whole-table runs |

`FilterStocks` returns an `Outcome`:
- `Unfiltered(table)`: a table returned as it stands.
- `CodeAndName(listings)`: the short-circuit projection.
- `Selected(stocks)`: the filtered report. Positions in the sequence are the
  index `0..n-1` that `reset_index` produces.
- `MissingKey`: the `KeyError` that pandas raises.

## Behaviour as written

- The conditions at lines 121-125 each fall back to "always true" when their
  column is unresolved, which reads like a relaxed filter. The early return at
  lines 104-107 comes first, so those fallbacks never run. Any missing field
  means no filtering at all: every row comes back as code and name.
  `Scenarios.MissingCapCase` shows this for a table with no market-cap column.
- When the code or name column is missing, the short circuit does not return
  the input unchanged. It returns the working copy, which already has the
  parsed column `近半年涨停次数_解析` whenever `涨停统计` was the resolved count
  column (`Properties.ShortCircuitKeepsEveryRow`).
- If all four numeric fields resolve but code or name is missing, the
  projection at line 140 raises `KeyError`. The model returns `MissingKey` in
  that case.
- `days < 4` is implied by `days == 1`. Both conjuncts are kept in
  `Stocks.Qualifies`, as the code applies both.

## Model

| member | source | states |
|---|---|---|
| `Columns.Resolve` | LearnNotes/gupiao/zt_filter_strategy.py:61-74 | the result is absent exactly when no candidate is a column; otherwise it is a column, and it is the candidate at some position with no earlier candidate present |
| `Columns.ResolveSeesOnlyCandidates` | LearnNotes/gupiao/zt_filter_strategy.py:61-74 | two column lists that agree on which candidates they contain resolve alike |
| `Strategy.Plan` | LearnNotes/gupiao/zt_filter_strategy.py:94-104 | no plan exactly when one of the four fields is unresolved; otherwise the plan reads each field from its resolved column, and the count from the parsed column when the composite column was chosen |
| `Numeric.ParseInt` | LearnNotes/gupiao/zt_filter_strategy.py:86 | text is read exactly when it is one or more digits after at most one leading sign; so empty text, text with any other character, or a sign elsewhere is not read; unsigned text reads as a non-negative number |
| `Numeric.ParseIntOfDigits` | LearnNotes/gupiao/zt_filter_strategy.py:86 | digits after an optional sign read as their value, negated after '-' |
| `Numeric.ParseIntSkipsLeadingZero` | LearnNotes/gupiao/zt_filter_strategy.py:86 | a leading zero, signed or not, does not change what is read: "07" is 7 and "-07" is -7 |
| `Numeric.ParseIntOfText` | LearnNotes/gupiao/zt_filter_strategy.py:86 | `int()` reads back the decimal text of every integer |
| `Numeric.ParseDecimal` | LearnNotes/gupiao/zt_filter_strategy.py:87 | text is read exactly when it is digits with at most one point and at least one digit, after at most one leading sign; text with any other character is not read |
| `Numeric.ParseDecimalOfText` | LearnNotes/gupiao/zt_filter_strategy.py:87 | `float()` reads the decimal text of an integer as that integer |
| `Numeric.IntegralValueOfText` | LearnNotes/gupiao/zt_filter_strategy.py:87 | digits after an optional sign read as their value, negated after '-' |
| `Numeric.DecimalValueOfText` | LearnNotes/gupiao/zt_filter_strategy.py:87 | digits, a point and digits after an optional sign read as the whole part plus the fraction digits over 10 to the power of their count, negated after '-'; coercion reads the same text as the same number |
| `Numeric.Truncate` | LearnNotes/gupiao/zt_filter_strategy.py:87 | `int()` of a float truncates toward zero: the result lies within one of the value, on the zero side |
| `Numeric.SecondFieldOfJoin` | LearnNotes/gupiao/zt_filter_strategy.py:84-86 | splitting `first/second[/...]` on '/' gives `second` as the second part |
| `Numeric.HalfYearOfComposite` | LearnNotes/gupiao/zt_filter_strategy.py:83-86 | a composite `total/half[/...]` count gives the half-year integer, whatever the total field holds |
| `Numeric.HalfYearOfCompositeText` | LearnNotes/gupiao/zt_filter_strategy.py:83-86 | a composite count whose second field is integer text gives what `int()` reads there, whatever the total field holds |
| `Numeric.HalfYearOfBadComposite` | LearnNotes/gupiao/zt_filter_strategy.py:82-89 | a composite count whose second field is not integer text (empty, a stray character, a misplaced sign) gives 0, not an error |
| `Numeric.HalfYearOfIntegerText` | LearnNotes/gupiao/zt_filter_strategy.py:87 | text without '/' holding an integer gives that integer |
| `Numeric.HalfYearOfDecimalText` | LearnNotes/gupiao/zt_filter_strategy.py:87 | text without '/' of digits, a point and digits gives its whole part with its sign: the fraction is dropped toward zero |
| `Numeric.HalfYearCount` | LearnNotes/gupiao/zt_filter_strategy.py:79-89 | a missing cell gives 0; a number gives its value truncated toward zero; text with a '/' gives what `int()` reads in its second field, or 0 when that is not integer text; other text gives its decimal value truncated toward zero, or 0 when it is not decimal text |
| `Numeric.ToNumeric` | LearnNotes/gupiao/zt_filter_strategy.py:110-112 | numbers are kept; missing cells become NaN; text becomes a number exactly when it is decimal text, so empty text and text with a letter, a misplaced sign or a second point become NaN |
| `Strategy.StockOf` | LearnNotes/gupiao/zt_filter_strategy.py:110-112 | code and name are kept; a field whose column the row lacks is NaN; a text field is a number exactly when it is decimal text |
| `Strategy.WithParsedCounts` | LearnNotes/gupiao/zt_filter_strategy.py:77-92 | the parsed column is added or overwritten with each row's parsed half-year count; no other column or cell changes and no row is added or lost |
| `Strategy.Prepare` | LearnNotes/gupiao/zt_filter_strategy.py:53-92 | the working copy has the input's rows with every cell outside the parsed-count column unchanged, and the same columns apart from that one; the parsed-count column is present exactly when the input had it or the count resolved to the composite column; when the count resolved to the composite column each row's parsed-count cell is the half-year count of its composite cell, and otherwise the working copy is the input itself |
| `Strategy.Candidates` | LearnNotes/gupiao/zt_filter_strategy.py:109-118 | there is one candidate per input row, in order, with that row's code and name |
| `Stocks.MaxCap` | LearnNotes/gupiao/zt_filter_strategy.py:116-117 | NaN exactly when every cap is NaN; otherwise a cap of the column that no cap exceeds |
| `Stocks.NormalizeCaps` | LearnNotes/gupiao/zt_filter_strategy.py:114-118 | if some known cap exceeds 1000, every cap is divided by 1e8 and NaN stays NaN; if none does, the column is unchanged; other fields never change |
| `Stocks.Qualifies` | LearnNotes/gupiao/zt_filter_strategy.py:121-127 | a qualifying stock has a price, a cap and a count, none NaN, and a streak of exactly 1 |
| `Stocks.QualifiesAsFirstBoard` | LearnNotes/gupiao/zt_filter_strategy.py:121-127 | the five conditions come to four: price < 30, cap < 200, count ≥ 3 and a streak of exactly 1, none of them NaN |
| `Stocks.Select` | LearnNotes/gupiao/zt_filter_strategy.py:120-127 | every kept stock meets all five conditions, and each stock is kept exactly as often as it occurs when it qualifies and never otherwise |
| `Stocks.SelectKeepsQualifying` | LearnNotes/gupiao/zt_filter_strategy.py:127 | a sequence of qualifying stocks passes the mask unchanged |
| `Ordering.InOrderTotal` | LearnNotes/gupiao/zt_filter_strategy.py:159-163 | any two stocks are comparable under the three-key order |
| `Ordering.InOrderTransitive` | LearnNotes/gupiao/zt_filter_strategy.py:159-163 | the three-key order is transitive |
| `Ordering.PrependSorted` | LearnNotes/gupiao/zt_filter_strategy.py:159-163 | a stock that may precede the head of a sorted sequence may precede every element of it |
| `Ordering.HeadStaysFirst` | LearnNotes/gupiao/zt_filter_strategy.py:159-163 | when `x` may not precede the head, the head may precede everything in the rest with `x` inserted |
| `Ordering.Insert` | LearnNotes/gupiao/zt_filter_strategy.py:159-163 | inserting into a sorted sequence keeps it sorted and adds exactly that one stock |
| `Ordering.SortStocks` | LearnNotes/gupiao/zt_filter_strategy.py:159-163 | the result is sorted by count descending, streak descending, cap ascending, and is a permutation of the input |
| `Ordering.SortKeepsSorted` | LearnNotes/gupiao/zt_filter_strategy.py:159-163 | sorting an already sorted sequence leaves it as it was |
| `Strategy.Report` | LearnNotes/gupiao/zt_filter_strategy.py:120-163 | the report is sorted, every entry qualifies, and it is a permutation of exactly the qualifying candidates |
| `Strategy.FilterStocks` | LearnNotes/gupiao/zt_filter_strategy.py:46-166 | empty input comes back unchanged; `KeyError` exactly when all four fields resolve but code or name is missing; every reported stock has price < 30, cap < 200, count ≥ 3, streak < 4 and streak == 1, none of them NaN; the report is in three-key order |
| `Properties.ShortCircuitKeepsEveryRow` | LearnNotes/gupiao/zt_filter_strategy.py:94-107 | with a field unresolved, every input row comes back in order as code and name; without code or name, the working copy comes back as it stands: every row, every cell outside the parsed-count column unchanged, each parsed-count cell the half-year count of its row's composite cell when the composite count was parsed, and the input itself when it was not |
| `Properties.ReportIsExactlyTheQualifying` | LearnNotes/gupiao/zt_filter_strategy.py:109-163 | when the table is non-empty, every field resolves and code and name are present, the outcome is a report; there is one candidate per input row; the report holds a candidate if and only if it qualifies, as often as it occurs |
| `Properties.CandidateOfRow` | LearnNotes/gupiao/zt_filter_strategy.py:109-118 | each candidate is its input row: code and name as given, price and streak coerced, count parsed from the composite column or coerced, cap coerced and divided by 1e8 exactly when some coerced cap in the table exceeds 1000 |
| `Properties.ReportColumnsResolve` | LearnNotes/gupiao/zt_filter_strategy.py:143-156 | the renamed report columns resolve back to themselves, with no composite count |
| `Strategy.ReportRow` | LearnNotes/gupiao/zt_filter_strategy.py:140-156 | a report row has exactly the six report labels, the stock's code and name, and a missing numeric cell exactly where the field is NaN |
| `Strategy.AsTable` | LearnNotes/gupiao/zt_filter_strategy.py:104-156 | a report renders under the six report labels, one row per stock, each row holding exactly those labels; a code-and-name projection renders as those two columns, one row per listing with its code and name; a table returned as it stands is itself |
| `Properties.ReportReadsBack` | LearnNotes/gupiao/zt_filter_strategy.py:140-156 | coercing the projected and renamed report gives back its stocks |
| `Properties.ParsedCountsSettle` | LearnNotes/gupiao/zt_filter_strategy.py:91 | assigning the parsed column twice is the same as once |
| `Properties.QualifyingSortedIsFixed` | LearnNotes/gupiao/zt_filter_strategy.py:115-163 | normalising, masking and sorting a sorted sequence of qualifying stocks changes nothing |
| `Properties.ReportFiltersToItself` | LearnNotes/gupiao/zt_filter_strategy.py:46-166 | a non-empty filtered report, filtered again, is the same report |
| `Properties.ListingsFilterToThemselves` | LearnNotes/gupiao/zt_filter_strategy.py:104-107 | a non-empty code-and-name table, filtered again, is the same projection |
| `Properties.WorkingCopyFiltersToItself` | LearnNotes/gupiao/zt_filter_strategy.py:76-107 | the working copy returned for want of code or name, filtered again, comes back as itself |
| `Properties.FilterIsIdempotent` | LearnNotes/gupiao/zt_filter_strategy.py:46-166 | filtering the table that `filter_stocks` returned gives back the same table, whenever it returned one |
| `Scenarios.CompositeCountCase` | LearnNotes/gupiao/zt_filter_strategy.py:83-86 | "5/3" gives 3 |
| `Scenarios.LongCompositeCountCase` | LearnNotes/gupiao/zt_filter_strategy.py:83-86 | "12/3/1" gives 3 |
| `Scenarios.PlainCountCases` | LearnNotes/gupiao/zt_filter_strategy.py:87 | "7" gives 7, "7.9" gives 7, and -2.5 gives -2 |
| `Scenarios.FailedCountCases` | LearnNotes/gupiao/zt_filter_strategy.py:80-89 | a missing cell and "abc" give 0 |
| `Scenarios.FailedCompositeCases` | LearnNotes/gupiao/zt_filter_strategy.py:83-89 | "2/x" and "5/" give 0 |
| `Scenarios.BareSignCase` | LearnNotes/gupiao/zt_filter_strategy.py:87-89 | "-" gives 0 |
| `Scenarios.TrailingSignCase` | LearnNotes/gupiao/zt_filter_strategy.py:87-89 | "3-" gives 0 |
| `Scenarios.TwoPointsCase` | LearnNotes/gupiao/zt_filter_strategy.py:87-89 | "1.2.3" gives 0 |
| `Scenarios.TwoSignsCase` | LearnNotes/gupiao/zt_filter_strategy.py:87-89 | "+-3" gives 0 |
| `Scenarios.LeadingZeroCompositeCase` | LearnNotes/gupiao/zt_filter_strategy.py:83-86 | "5/03" gives 3 |
| `Scenarios.PlusCompositeCase` | LearnNotes/gupiao/zt_filter_strategy.py:83-86 | "5/+3" gives 3 |
| `Scenarios.MinusCompositeCase` | LearnNotes/gupiao/zt_filter_strategy.py:83-86 | "5/-3" gives -3 |
| `Scenarios.TrailingSignCompositeCase` | LearnNotes/gupiao/zt_filter_strategy.py:83-89 | "5/3-" gives 0 |
| `Scenarios.NormalizeCases` | LearnNotes/gupiao/zt_filter_strategy.py:115-118 | caps [50, 80, 120] stay as they are; [5e9, 8e9] become [50, 80] |
| `Scenarios.SortCase` | LearnNotes/gupiao/zt_filter_strategy.py:159-163 | (count, streak, cap) = (5,2,50), (5,2,30), (3,4,10) are listed as (5,2,30), (5,2,50), (3,4,10) |
| `Scenarios.SnapshotCase` | LearnNotes/gupiao/zt_filter_strategy.py:46-166 | of two first-board rows with yuan caps and "5/3" counts, the one priced 45 is dropped; the other is reported with cap 50 and count 3 |
| `Scenarios.OnlyQualifierRemains` | LearnNotes/gupiao/zt_filter_strategy.py:127 | of two candidates where only the first qualifies, the report holds the first alone |
| `Scenarios.MissingCapCase` | LearnNotes/gupiao/zt_filter_strategy.py:94-107 | with no market-cap column, both rows come back as code and name, including the overpriced one |

## Left out

- `get_limit_up_stocks` (lines 24-43) is not modelled. It is a network call to an external data provider, plus a current-date default.
- `main` (lines 169-281) is not modelled. It covers the date prompt, the console printing and the display-only cap conversion.
- The warnings filter (line 21) and the diagnostic print (line 105) have no effect on the result.
- `Numeric.ParseInt` and `Numeric.ParseDecimal` accept a simplified grammar: an optional sign, then ASCII digits, with at most one decimal point for `float()`. Python also accepts surrounding whitespace, underscores between digits, exponents, "inf" and "nan", and the decimal digits of every Unicode script (fullwidth "３", Arabic-Indic "٣" and so on). In the model all such text is unparseable, so the half-year parser gives 0 where Python's `int()` or `float()` would read a number. Only "inf" and "nan" agree for the half-year parser, because `int()` of an infinity or NaN raises and gives 0 anyway.
- `Numeric.ToNumeric` reads text with the same `float()` grammar. pandas' `to_numeric` has its own text parser, whose further accepted forms (surrounding whitespace, exponents, "inf" and similar spellings) are not modelled; such text becomes NaN in the model.
- Cells are missing, real numbers or text. Booleans, other objects and IEEE infinities are not modelled. Numbers are exact reals, so the rounding of the division by 1e8 is not modelled.
- `Numeric.HalfYearCount` reads decimal text as an exact decimal. Python's `float()` rounds it to the nearest double and overflows long text to infinity, and neither is modelled. So `int(float("7.99999999999999999"))` is 8 in Python but 7 in the model (`Numeric.HalfYearOfDecimalText`). Text of some 400 digits overflows to infinity, so `int()` raises and Python gives 0, while the model gives the exact value.
- `Numeric.ToNumeric` also reads text as an exact decimal, with no rounding to a double and no overflow to infinity. A price of "29.99999999999999999" coerces to 30.0 in pandas and fails `price < 30`, but in the model it stays below 30 and the stock is kept.
- The integer and float dtypes of columns are not distinguished. The parsed count is an integer stored as a real.
- `Ordering.SortStocks` is a stable insertion sort. Its contract states only a sorted permutation under the three keys. The order of stocks tied on all three keys is not stated, and pandas' sort algorithm is not modelled.
- The row index labels of the input are not modelled. The code-and-name projection and the working copy keep pandas' original index; the model keeps only the row order.
- Duplicate column labels are not modelled. A column list is used only for membership and order, and a row is a map from label to cell.
- The magnitude test for market-cap units (largest cap over 1000 means yuan) can misjudge a table that is already in hundred-million yuan but holds one very large company. The model keeps the heuristic as written.

=== FILE: columns.dfy ===
/**
 * Column reconciliation. The data provider has renamed its columns between
 * versions, so each logical field lists the names it may appear under, in
 * priority order, and is bound to the first of them the table carries.
 */
module Columns {
  import opened Frame

  const CodeColumn: string := "代码"
  const NameColumn: string := "名称"

  /** Latest price. */
  const PriceCandidates: seq<string> := ["最新价", "现价", "收盘价"]
  /** Total market capitalisation, in yuan or in hundred-million yuan. */
  const CapCandidates: seq<string> := ["总市值", "总市值(亿)", "总市值-亿"]
  /** Length of the current limit-up streak. */
  const DaysCandidates: seq<string> := ["连续涨停天数", "连板数", "连板次数"]
  /** Number of limit-ups over the last half year. */
  const CountCandidates: seq<string> := ["涨停统计", "半年涨停次数", "近半年涨停次数"]

  /** The count column whose cells are composite "total/half-year" text. */
  const CompositeCountColumn: string := "涨停统计"
  /** The column the parsed half-year counts are written to. */
  const ParsedCountColumn: string := "近半年涨停次数_解析"

  /** The position of the first candidate that is one of `columns`, or `|candidates|`. */
  function FirstPresent(candidates: seq<string>, columns: seq<string>): (k: nat)
    ensures k <= |candidates|
    ensures k < |candidates| ==> candidates[k] in columns
    ensures forall j :: 0 <= j < k ==> candidates[j] !in columns
  {
    if |candidates| == 0 then 0
    else if candidates[0] in columns then 0
    else 1 + FirstPresent(candidates[1..], columns)
  }

  /** The first candidate, in list order, that is a column, or None when no candidate is. */
  function Resolve(candidates: seq<string>, columns: seq<string>): (r: Option<string>)
    ensures r.None? <==> forall k :: 0 <= k < |candidates| ==> candidates[k] !in columns
    ensures r.Some? ==> r.value in columns
    ensures r.Some? ==> exists k :: 0 <= k < |candidates| && candidates[k] == r.value
                                    && forall j :: 0 <= j < k ==> candidates[j] !in columns
  {
    var k := FirstPresent(candidates, columns);
    if k < |candidates| then Some(candidates[k]) else None
  }

  /** Resolution looks only at which candidates are present, not at any other column. */
  lemma ResolveSeesOnlyCandidates(candidates: seq<string>, a: seq<string>, b: seq<string>)
    requires forall k :: 0 <= k < |candidates| ==> (candidates[k] in a <==> candidates[k] in b)
    ensures Resolve(candidates, a) == Resolve(candidates, b)
  {
  }
}

=== FILE: frame.dfy ===
/**
 * Tables as the limit-up strategy sees them: a data frame with named columns
 * whose rows hold loosely typed cells.
 */
module Frame {

  /** An optional value; for numbers, None stands for pandas' NaN. */
  datatype Option<+T> = None | Some(value: T)

  /** One cell of a data frame: a missing value (None or NaN), a number, or text. */
  datatype Cell = Null | Num(x: real) | Text(s: string)

  /** A row maps column names to cells. */
  type Row = map<string, Cell>

  /** A data frame: its column labels, in order, and its rows, in index order. */
  datatype Table = Table(columns: seq<string>, rows: seq<Row>)

  /** The cell of `row` under `column`; a column the row lacks reads as missing. */
  function Get(row: Row, column: string): Cell
  {
    if column in row then row[column] else Null
  }

  /** pandas' `DataFrame.empty`: true when either axis has length zero. */
  predicate IsEmpty(t: Table)
  {
    |t.rows| == 0 || |t.columns| == 0
  }
}

=== FILE: numeric.dfy ===
/**
 * The text-to-number conversions the strategy relies on: Python's `int()` and
 * `float()` on decimal text, truncation toward zero, pandas' coercing
 * `to_numeric`, and the parser of the composite "total/half-year" count.
 */
module Numeric {
  import opened Frame

  predicate IsDigit(c: char)
  {
    '0' <= c <= '9'
  }

  predicate AllDigits(s: string)
  {
    forall i :: 0 <= i < |s| ==> IsDigit(s[i])
  }

  predicate IsSign(c: char)
  {
    c == '+' || c == '-'
  }

  /** A character that can appear in no integer literal: neither a digit nor a sign. */
  predicate IsForeign(c: char)
  {
    !IsDigit(c) && !IsSign(c)
  }

  /** A character that can appear in no decimal literal: neither a digit, a sign nor a point. */
  predicate IsAlien(c: char)
  {
    IsForeign(c) && c != '.'
  }

  /** Text `int()` reads: one or more digits, optionally after a single sign. */
  predicate IntegerText(s: string)
  {
    && |s| > 0
    && (IsDigit(s[0]) || (IsSign(s[0]) && |s| > 1))
    && forall i :: 0 < i < |s| ==> IsDigit(s[i])
  }

  /** Digits and points only. */
  predicate DigitsOrPoints(s: string)
  {
    forall i :: 0 <= i < |s| ==> IsDigit(s[i]) || s[i] == '.'
  }

  /** Digits and at most one decimal point, with at least one digit. */
  predicate UnsignedDecimal(s: string)
  {
    && DigitsOrPoints(s)
    && (forall i, j :: 0 <= i < j < |s| && s[i] == '.' ==> s[j] != '.')
    && (exists i :: 0 <= i < |s| && IsDigit(s[i]))
  }

  /** Text `float()` reads, as far as this model goes: an unsigned decimal, optionally after a single sign. */
  predicate DecimalText(s: string)
  {
    if |s| > 0 && IsSign(s[0]) then UnsignedDecimal(s[1..]) else UnsignedDecimal(s)
  }

  function DigitValue(c: char): nat
    requires IsDigit(c)
  {
    c as int - '0' as int
  }

  function DigitChar(d: nat): (c: char)
    requires d < 10
    ensures IsDigit(c) && DigitValue(c) == d
  {
    ('0' as int + d) as char
  }

  /** The value of a run of decimal digits, most significant first. */
  function DigitsValue(s: string): nat
    requires AllDigits(s)
  {
    if |s| == 0 then 0 else DigitsValue(s[..|s| - 1]) * 10 + DigitValue(s[|s| - 1])
  }

  function Pow10(n: nat): (p: nat)
    ensures p >= 1
  {
    if n == 0 then 1 else 10 * Pow10(n - 1)
  }

  /** `x` divided by ten, `k` times over: `x / 10^k`. */
  function ScaleDown(x: real, k: nat): real
    decreases k
  {
    if k == 0 then x else ScaleDown(x / 10.0, k - 1)
  }

  /** Decimal text of a natural number: digits only, no leading zero, denoting `n`. */
  function NatToText(n: nat): (s: string)
    ensures |s| > 0 && AllDigits(s)
    ensures |s| > 1 ==> s[0] != '0'
    ensures DigitsValue(s) == n
  {
    if n < 10 then
      [DigitChar(n)]
    else
      var p := NatToText(n / 10);
      var s := p + [DigitChar(n % 10)];
      assert s[..|s| - 1] == p;
      s
  }

  /** Decimal text of an integer, with a leading '-' when it is negative. */
  function IntToText(n: int): string
  {
    if n < 0 then "-" + NatToText(-n) else NatToText(n)
  }

  /** Python's `int()` on text, simplified: an optional sign, then one or more digits. */
  function ParseInt(s: string): (r: Option<int>)
    ensures r.Some? <==> IntegerText(s)
    // The next two clauses follow from the one above; they name the common failures.
    ensures s == [] ==> r.None?
    ensures (exists i :: 0 <= i < |s| && IsForeign(s[i])) ==> r.None?
    ensures r.Some? && IsDigit(s[0]) ==> r.value >= 0
  {
    if |s| > 0 && IsSign(s[0]) then
      var body := s[1..];
      if |body| > 0 && AllDigits(body) then
        var magnitude: int := DigitsValue(body);
        Some(if s[0] == '-' then -magnitude else magnitude)
      else
        None
    else if |s| > 0 && AllDigits(s) then
      Some(DigitsValue(s))
    else
      None
  }

  /** The position of the first `c` in `s`, or `|s|` when there is none. */
  function IndexOf(s: string, c: char): (k: nat)
    ensures k <= |s|
    ensures k < |s| ==> s[k] == c
    ensures forall j :: 0 <= j < k ==> s[j] != c
  {
    if |s| == 0 then 0
    else if s[0] == c then 0
    else 1 + IndexOf(s[1..], c)
  }

  /** The parts of `s` before and after its first decimal point. */
  function WholePart(s: string): string
  {
    s[..IndexOf(s, '.')]
  }

  function FractionPart(s: string): string
  {
    var point := IndexOf(s, '.');
    if point < |s| then s[point + 1..] else []
  }

  /** An unsigned decimal splits at its point into two runs of digits, not both empty, and nothing else does. */
  lemma SplitAtPoint(s: string)
    ensures UnsignedDecimal(s) <==>
      AllDigits(WholePart(s)) && AllDigits(FractionPart(s)) && |WholePart(s)| + |FractionPart(s)| > 0
  {
    var point := IndexOf(s, '.');
    var whole, fraction := WholePart(s), FractionPart(s);
    if UnsignedDecimal(s) {
      forall i | 0 <= i < |whole| ensures IsDigit(whole[i]) {
        assert whole[i] == s[i];
      }
      forall i | 0 <= i < |fraction| ensures IsDigit(fraction[i]) {
        assert fraction[i] == s[point + 1 + i];
      }
      var k :| 0 <= k < |s| && IsDigit(s[k]);
      if k > point {
        assert fraction[k - point - 1] == s[k];
      }
    }
    if AllDigits(whole) && AllDigits(fraction) && |whole| + |fraction| > 0 {
      forall i | 0 <= i < |s| ensures IsDigit(s[i]) || s[i] == '.' {
        if i < point {
          assert s[i] == whole[i];
        } else if i > point {
          assert s[i] == fraction[i - point - 1];
        }
      }
      forall i, j | 0 <= i < j < |s| && s[i] == '.' ensures s[j] != '.' {
        assert s[j] == fraction[j - point - 1];
      }
      if |whole| > 0 {
        assert IsDigit(s[0]) by { assert s[0] == whole[0]; }
      } else {
        assert IsDigit(s[point + 1]) by { assert s[point + 1] == fraction[0]; }
      }
    }
  }

  /** `float()` on unsigned text: digits, then optionally a point and more digits. */
  function UnsignedValue(s: string): Option<real>
  {
    var whole, fraction := WholePart(s), FractionPart(s);
    if AllDigits(whole) && AllDigits(fraction) && |whole| + |fraction| > 0 then
      Some(DigitsValue(whole) as real + ScaleDown(DigitsValue(fraction) as real, |fraction|))
    else
      None
  }

  /** `float()` reads exactly the unsigned decimals. */
  lemma UnsignedValueAccepts(s: string)
    ensures UnsignedValue(s).Some? <==> UnsignedDecimal(s)
  {
    SplitAtPoint(s);
  }

  /** Text with a character no decimal literal has is no decimal. */
  lemma AlienIsNotDecimal(s: string)
    ensures (exists i :: 0 <= i < |s| && IsAlien(s[i])) ==> !DecimalText(s)
  {
    if exists i :: 0 <= i < |s| && IsAlien(s[i]) {
      var i :| 0 <= i < |s| && IsAlien(s[i]);
      if |s| > 0 && IsSign(s[0]) {
        assert s[1..][i - 1] == s[i];
      }
    }
  }

  /**
   * Python's `float()` on text, simplified: an optional sign, then digits with
   * at most one decimal point and at least one digit in all.
   */
  function ParseDecimal(s: string): (r: Option<real>)
    ensures r.Some? <==> DecimalText(s)
    // The next two clauses follow from the one above; they name the common failures.
    ensures s == [] ==> r.None?
    ensures (exists i :: 0 <= i < |s| && IsAlien(s[i])) ==> r.None?
  {
    AlienIsNotDecimal(s);
    var signed := |s| > 0 && IsSign(s[0]);
    UnsignedValueAccepts(if signed then s[1..] else s);
    match UnsignedValue(if signed then s[1..] else s)
    case None => None
    case Some(v) => Some(if signed && s[0] == '-' then -v else v)
  }

  /** Python's `int()` on a float: truncation toward zero. */
  function Truncate(r: real): (t: int)
    ensures 0.0 <= r ==> t as real <= r < t as real + 1.0
    ensures r < 0.0 ==> t as real - 1.0 < r <= t as real
  {
    if r >= 0.0 then r.Floor else -((-r).Floor)
  }

  /** pandas' `to_numeric(..., errors="coerce")` on one cell: unparseable text becomes NaN. */
  function ToNumeric(c: Cell): (r: Option<real>)
    ensures c.Null? ==> r.None?
    ensures c.Num? ==> r == Some(c.x)
    ensures c.Text? ==> (r.Some? <==> DecimalText(c.s))
    // The next two clauses follow from the one above; they name the common failures.
    ensures c.Text? && c.s == [] ==> r.None?
    ensures c.Text? && (exists i :: 0 <= i < |c.s| && IsAlien(c.s[i])) ==> r.None?
  {
    match c
    case Null => None
    case Num(x) => Some(x)
    case Text(s) => ParseDecimal(s)
  }

  /** The field after the first '/' of `s`, up to the next '/' or the end. */
  function SecondField(s: string): string
    requires '/' in s
  {
    var rest := s[IndexOf(s, '/') + 1..];
    rest[..IndexOf(rest, '/')]
  }

  /**
   * `extract_half_year_times`: the half-year part of a "total/half-year" count.
   * It is total: a missing cell and every parse failure give 0. Text with a
   * '/' is read by `int()` on its second field; other text by `float()`, then
   * truncated toward zero, as a number is.
   */
  function HalfYearCount(x: Cell): (h: int)
    ensures x.Null? ==> h == 0
    ensures x.Num? && 0.0 <= x.x ==> h as real <= x.x < h as real + 1.0
    ensures x.Num? && x.x < 0.0 ==> x.x <= h as real < x.x + 1.0
    ensures x.Text? && '/' in x.s && IntegerText(SecondField(x.s)) ==> ParseInt(SecondField(x.s)) == Some(h)
    ensures x.Text? && '/' in x.s && !IntegerText(SecondField(x.s)) ==> h == 0
    ensures x.Text? && '/' !in x.s && !DecimalText(x.s) ==> h == 0
    ensures x.Text? && '/' !in x.s && DecimalText(x.s) ==>
      var v := ParseDecimal(x.s).value;
      && (0.0 <= v ==> h as real <= v < h as real + 1.0)
      && (v < 0.0 ==> v <= h as real < v + 1.0)
  {
    match x
    case Null => 0
    case Num(v) => Truncate(v)
    case Text(s) =>
      if '/' in s then
        match ParseInt(SecondField(s))
        case Some(n) => n
        case None => 0
      else
        match ParseDecimal(s)
        case Some(v) => Truncate(v)
        case None => 0
  }

  /** Splitting on '/' recovers the field between the first and the second separator. */
  lemma SecondFieldOfJoin(first: string, second: string, tail: string)
    requires '/' !in first && '/' !in second
    requires tail == [] || tail[0] == '/'
    ensures '/' in first + "/" + second + tail
    ensures SecondField(first + "/" + second + tail) == second
  {
    var s := first + "/" + second + tail;
    assert s[|first|] == '/';
    var k := IndexOf(s, '/');
    assert k == |first|;
    var rest := s[k + 1..];
    assert rest == second + tail;
    if tail != [] {
      assert rest[|second|] == '/';
    }
    assert IndexOf(rest, '/') == |second|;
  }

  /** A leading zero does not change the value of a run of digits. */
  lemma {:induction false} DigitsValueLeadingZero(d: string)
    requires AllDigits(d)
    ensures AllDigits("0" + d) && DigitsValue("0" + d) == DigitsValue(d)
  {
    var z := "0" + d;
    if |d| > 0 {
      assert z[..|z| - 1] == "0" + d[..|d| - 1];
      DigitsValueLeadingZero(d[..|d| - 1]);
    } else {
      assert z[..|z| - 1] == [];
    }
  }

  /** A run of `n` digits is below `10^n`. */
  lemma {:induction false} DigitsBelowPow10(d: string)
    requires AllDigits(d)
    ensures DigitsValue(d) < Pow10(|d|)
  {
    if |d| > 0 {
      DigitsBelowPow10(d[..|d| - 1]);
    }
  }

  /** Scaling down by `10^k` takes a value in [0, 10^k) into [0, 1). */
  lemma {:induction false} ScaleDownBelowOne(x: real, k: nat)
    requires 0.0 <= x < Pow10(k) as real
    ensures 0.0 <= ScaleDown(x, k) < 1.0
    decreases k
  {
    if k > 0 {
      ScaleDownBelowOne(x / 10.0, k - 1);
    }
  }

  /** A fraction's digits over its scale lie in [0, 1). */
  lemma FractionBelowOne(f: string)
    requires AllDigits(f)
    ensures 0.0 <= ScaleDown(DigitsValue(f) as real, |f|) < 1.0
  {
    DigitsBelowPow10(f);
    ScaleDownBelowOne(DigitsValue(f) as real, |f|);
  }

  /** `int()` on one or more digits after an optional sign: their value, negated after '-'. */
  lemma ParseIntOfDigits(sign: string, d: string)
    requires sign == "" || sign == "+" || sign == "-"
    requires |d| > 0 && AllDigits(d)
    ensures ParseInt(sign + d) == Some(if sign == "-" then -(DigitsValue(d) as int) else DigitsValue(d))
  {
    var s := sign + d;
    if sign == "" {
      assert s == d;
      assert IsDigit(s[0]) && !IsSign(s[0]);
    } else {
      assert s[0] == sign[0] && IsSign(s[0]);
      assert s[1..] == d;
    }
  }

  /** `int()` ignores leading zeros, with or without a sign: "07" reads as 7 and "-07" as -7. */
  lemma ParseIntSkipsLeadingZero(sign: string, d: string)
    requires sign == "" || sign == "+" || sign == "-"
    requires |d| > 0 && AllDigits(d)
    ensures ParseInt(sign + "0" + d) == ParseInt(sign + d)
  {
    DigitsValueLeadingZero(d);
    ParseIntOfDigits(sign, d);
    ParseIntOfDigits(sign, "0" + d);
    assert sign + "0" + d == sign + ("0" + d);
  }

  /** `int()` inverts the decimal rendering of every integer. */
  lemma ParseIntOfText(n: int)
    ensures ParseInt(IntToText(n)) == Some(n)
  {
  }

  /** A run of digits holds no decimal point. */
  lemma NoPointInDigits(d: string)
    requires AllDigits(d)
    ensures IndexOf(d, '.') == |d|
  {
    forall j | 0 <= j < |d| ensures d[j] != '.' {
      assert IsDigit(d[j]);
    }
  }

  /** `float()` on text of digits and points after an optional sign: the unsigned value, negated after '-'. */
  lemma ParseDecimalOfSigned(sign: string, body: string)
    requires sign == "" || sign == "+" || sign == "-"
    requires DigitsOrPoints(body)
    ensures ParseDecimal(sign + body).Some? <==> UnsignedValue(body).Some?
    ensures UnsignedValue(body).Some? ==>
      ParseDecimal(sign + body).value == if sign == "-" then -UnsignedValue(body).value else UnsignedValue(body).value
  {
    var s := sign + body;
    if sign == "" {
      assert s == body;
      if |body| > 0 {
        assert !IsSign(s[0]) by { assert IsDigit(body[0]) || body[0] == '.'; }
      }
    } else {
      assert s[0] == sign[0] && IsSign(s[0]);
      assert s[1..] == body;
    }
  }

  /** Digits, a point and digits split at that point. */
  lemma SplitOfPointText(w: string, f: string)
    requires AllDigits(w) && AllDigits(f)
    ensures DigitsOrPoints(w + "." + f)
    ensures WholePart(w + "." + f) == w && FractionPart(w + "." + f) == f
  {
    var body := w + "." + f;
    NoPointInDigits(w);
    assert body[|w|] == '.';
    assert IndexOf(body, '.') == |w|;
    forall i | 0 <= i < |body| ensures IsDigit(body[i]) || body[i] == '.' {
      if i < |w| {
        assert body[i] == w[i];
      } else if i > |w| {
        assert body[i] == f[i - |w| - 1];
      }
    }
  }

  /**
   * `float()` on digits, a point and digits after an optional sign: the whole
   * part plus the fraction over its scale, negated after '-'. Coercion reads
   * the same text as the same number.
   */
  lemma DecimalValueOfText(sign: string, w: string, f: string)
    requires sign == "" || sign == "+" || sign == "-"
    requires AllDigits(w) && AllDigits(f) && |w| + |f| > 0
    ensures var v := DigitsValue(w) as real + ScaleDown(DigitsValue(f) as real, |f|);
      && ParseDecimal(sign + w + "." + f).Some?
      && ParseDecimal(sign + w + "." + f).value == (if sign == "-" then -v else v)
      && ToNumeric(Text(sign + w + "." + f)) == ParseDecimal(sign + w + "." + f)
  {
    var body := w + "." + f;
    JoinSigned(sign, w, f);
    UnsignedValueOfPointText(w, f);
    SplitOfPointText(w, f);
    ParseDecimalOfSigned(sign, body);
  }

  lemma JoinSigned(sign: string, w: string, f: string)
    ensures sign + w + "." + f == sign + (w + "." + f)
  {
  }

  /** Unsigned digits, a point and digits: the whole part plus the fraction over its scale. */
  lemma UnsignedValueOfPointText(w: string, f: string)
    requires AllDigits(w) && AllDigits(f) && |w| + |f| > 0
    ensures UnsignedValue(w + "." + f).Some?
    ensures UnsignedValue(w + "." + f).value == DigitsValue(w) as real + ScaleDown(DigitsValue(f) as real, |f|)
  {
    SplitOfPointText(w, f);
  }

  /** `float()` on digits after an optional sign: their value, negated after '-'. */
  lemma IntegralValueOfText(sign: string, w: string)
    requires sign == "" || sign == "+" || sign == "-"
    requires |w| > 0 && AllDigits(w)
    ensures ParseDecimal(sign + w).Some?
    ensures ParseDecimal(sign + w).value == if sign == "-" then -(DigitsValue(w) as real) else DigitsValue(w) as real
  {
    NoPointInDigits(w);
    assert WholePart(w) == w && FractionPart(w) == [];
    assert DigitsOrPoints(w) by {
      forall i | 0 <= i < |w| ensures IsDigit(w[i]) || w[i] == '.' {
        assert IsDigit(w[i]);
      }
    }
    assert UnsignedValue(w).Some? && UnsignedValue(w).value == DigitsValue(w) as real;
    ParseDecimalOfSigned(sign, w);
  }

  /** `float()` reads the decimal rendering of an integer as that integer. */
  lemma ParseDecimalOfText(n: int)
    ensures ParseDecimal(IntToText(n)) == Some(n as real)
  {
    if n < 0 {
      IntegralValueOfText("-", NatToText(-n));
    } else {
      IntegralValueOfText("", NatToText(n));
      assert "" + NatToText(n) == NatToText(n);
    }
  }

  /** A composite "total/half" count yields its half-year part, whatever the total field holds. */
  lemma HalfYearOfComposite(first: string, half: int, tail: string)
    requires '/' !in first
    requires tail == [] || tail[0] == '/'
    ensures HalfYearCount(Text(first + "/" + IntToText(half) + tail)) == half
  {
    var second := IntToText(half);
    assert '/' !in second by {
      forall j | 0 <= j < |second| ensures second[j] != '/' {
        if half < 0 {
          assert j == 0 || second[j] == NatToText(-half)[j - 1];
        }
      }
    }
    SecondFieldOfJoin(first, second, tail);
    ParseIntOfText(half);
  }

  /** A composite count whose half-year part is integer text yields what `int()` reads there. */
  lemma HalfYearOfCompositeText(first: string, second: string, tail: string)
    requires '/' !in first && '/' !in second
    requires tail == [] || tail[0] == '/'
    requires IntegerText(second)
    ensures ParseInt(second) == Some(HalfYearCount(Text(first + "/" + second + tail)))
  {
    SecondFieldOfJoin(first, second, tail);
  }

  /** A composite count whose half-year part is no integer literal yields 0. */
  lemma HalfYearOfBadComposite(first: string, second: string, tail: string)
    requires '/' !in first && '/' !in second
    requires tail == [] || tail[0] == '/'
    requires !IntegerText(second)
    ensures HalfYearCount(Text(first + "/" + second + tail)) == 0
  {
    SecondFieldOfJoin(first, second, tail);
  }

  /** A plain integer text (no '/') yields that integer. */
  lemma HalfYearOfIntegerText(n: int)
    ensures HalfYearCount(Text(IntToText(n))) == n
  {
    var s := IntToText(n);
    assert '/' !in s by {
      forall j | 0 <= j < |s| ensures s[j] != '/' {
        if n < 0 {
          assert j == 0 || s[j] == NatToText(-n)[j - 1];
        }
      }
    }
    ParseDecimalOfText(n);
  }

  /**
   * Plain decimal text (no '/') yields its whole part, with the sign it has:
   * the fraction is dropped by truncation toward zero, "7.9" giving 7 and
   * "-7.9" giving -7.
   */
  lemma HalfYearOfDecimalText(sign: string, w: string, f: string)
    requires sign == "" || sign == "+" || sign == "-"
    requires AllDigits(w) && AllDigits(f) && |w| + |f| > 0
    ensures HalfYearCount(Text(sign + w + "." + f)) == if sign == "-" then -(DigitsValue(w) as int) else DigitsValue(w)
  {
    var s := sign + w + "." + f;
    var fraction := ScaleDown(DigitsValue(f) as real, |f|);
    PointTextReads(sign, w, f);
    assert ParseDecimal(s).value == if sign == "-" then -(DigitsValue(w) as real + fraction) else DigitsValue(w) as real + fraction;
    HalfYearOfSignedValue(s, DigitsValue(w), fraction, sign == "-");
  }

  /** Signed point text has no '/', and `float()` reads it as its whole part plus a fraction in [0, 1). */
  lemma PointTextReads(sign: string, w: string, f: string)
    requires sign == "" || sign == "+" || sign == "-"
    requires AllDigits(w) && AllDigits(f) && |w| + |f| > 0
    ensures '/' !in sign + w + "." + f
    ensures 0.0 <= ScaleDown(DigitsValue(f) as real, |f|) < 1.0
    ensures var v := DigitsValue(w) as real + ScaleDown(DigitsValue(f) as real, |f|);
      && ParseDecimal(sign + w + "." + f).Some?
      && ParseDecimal(sign + w + "." + f).value == if sign == "-" then -v else v
  {
    DecimalValueOfText(sign, w, f);
    SplitOfPointText(w, f);
    JoinSigned(sign, w, f);
    NoSlashInSigned(sign, w + "." + f);
    FractionBelowOne(f);
  }

  /** Text without '/' that `float()` reads as `±(n + fraction)`, the fraction in [0, 1), yields `±n`. */
  lemma HalfYearOfSignedValue(s: string, n: nat, fraction: real, negative: bool)
    requires '/' !in s && ParseDecimal(s).Some? && 0.0 <= fraction < 1.0
    requires ParseDecimal(s).value == if negative then -(n as real + fraction) else n as real + fraction
    ensures HalfYearCount(Text(s)) == if negative then -(n as int) else n
  {
    HalfYearOfPlainText(s);
    TruncateDropsFraction(n, fraction);
  }

  /** Text without '/' that `float()` reads is that number truncated toward zero. */
  lemma HalfYearOfPlainText(s: string)
    requires '/' !in s && ParseDecimal(s).Some?
    ensures HalfYearCount(Text(s)) == Truncate(ParseDecimal(s).value)
  {
  }

  /** Truncation toward zero drops a fraction in [0, 1), whatever the sign. */
  lemma TruncateDropsFraction(n: nat, fraction: real)
    requires 0.0 <= fraction < 1.0
    ensures Truncate(n as real + fraction) == n
    ensures Truncate(-(n as real + fraction)) == -(n as int)
  {
  }

  /** Text of digits and points after an optional sign holds no '/'. */
  lemma NoSlashInSigned(sign: string, body: string)
    requires sign == "" || sign == "+" || sign == "-"
    requires DigitsOrPoints(body)
    ensures '/' !in sign + body
  {
    var s := sign + body;
    forall i | 0 <= i < |s| ensures s[i] != '/' {
      if i >= |sign| {
        assert s[i] == body[i - |sign|];
      }
    }
  }
}

=== FILE: ordering.dfy ===
/**
 * The report order: half-year count descending, then streak length
 * descending, then market capitalisation ascending, NaN last on every key
 * (pandas' `sort_values` with `na_position="last"`).
 */
module Ordering {
  import opened Frame
  import opened Stocks

  /** `a` comes strictly before `b` on one sort key. */
  predicate KeyBefore(a: Option<real>, b: Option<real>, descending: bool)
  {
    match (a, b)
    case (Some(x), Some(y)) => if descending then x > y else x < y
    case (Some(_), None) => true
    case (None, _) => false
  }

  /** `a` may be listed before `b`. */
  predicate InOrder(a: Stock, b: Stock)
  {
    || KeyBefore(a.count, b.count, true)
    || (a.count == b.count && KeyBefore(a.days, b.days, true))
    || (a.count == b.count && a.days == b.days && !KeyBefore(b.cap, a.cap, false))
  }

  ghost predicate Sorted(s: seq<Stock>)
  {
    forall i, j :: 0 <= i < j < |s| ==> InOrder(s[i], s[j])
  }

  /** Any two stocks can be listed one way round or the other. */
  lemma InOrderTotal(a: Stock, b: Stock)
    ensures InOrder(a, b) || InOrder(b, a)
  {
  }

  lemma InOrderTransitive(a: Stock, b: Stock, c: Stock)
    requires InOrder(a, b) && InOrder(b, c)
    ensures InOrder(a, c)
  {
  }

  /** A stock that may precede the head of a sorted sequence may precede all of it. */
  lemma PrependSorted(x: Stock, s: seq<Stock>)
    requires Sorted(s) && |s| > 0 && InOrder(x, s[0])
    ensures Sorted([x] + s)
  {
    forall j | 0 < j < |s| ensures InOrder(x, s[j]) {
      InOrderTransitive(x, s[0], s[j]);
    }
  }

  /**
   * The head of a sorted sequence that `x` may not precede stays in front when
   * `x` is inserted into the rest.
   */
  lemma HeadStaysFirst(x: Stock, s: seq<Stock>, rest: seq<Stock>)
    requires Sorted(s) && |s| > 0 && !InOrder(x, s[0])
    requires Sorted(rest) && multiset(rest) == multiset(s[1..]) + multiset{x}
    ensures Sorted([s[0]] + rest)
  {
    InOrderTotal(x, s[0]);
    forall j | 0 <= j < |rest| ensures InOrder(s[0], rest[j]) {
      assert rest[j] in multiset(rest);
      if rest[j] != x {
        assert rest[j] in multiset(s[1..]);
        var k :| 0 <= k < |s[1..]| && s[1..][k] == rest[j];
        assert s[k + 1] == rest[j];
      }
    }
  }

  /** Places `x` into a sorted sequence, before the first element it may precede. */
  function Insert(x: Stock, s: seq<Stock>): (r: seq<Stock>)
    requires Sorted(s)
    ensures Sorted(r)
    ensures multiset(r) == multiset(s) + multiset{x}
  {
    if |s| == 0 then
      [x]
    else if InOrder(x, s[0]) then
      PrependSorted(x, s);
      [x] + s
    else
      assert s == [s[0]] + s[1..];
      var rest := Insert(x, s[1..]);
      HeadStaysFirst(x, s, rest);
      [s[0]] + rest
  }

  /** `sort_values` on the three keys: a sorted permutation of the input. */
  function SortStocks(s: seq<Stock>): (r: seq<Stock>)
    ensures Sorted(r)
    ensures multiset(r) == multiset(s)
  {
    if |s| == 0 then
      []
    else
      assert s == [s[0]] + s[1..];
      Insert(s[0], SortStocks(s[1..]))
  }

  /** Sorting leaves an already sorted sequence exactly as it was. */
  lemma {:induction false} SortKeepsSorted(s: seq<Stock>)
    requires Sorted(s)
    ensures SortStocks(s) == s
  {
    if |s| > 0 {
      assert Sorted(s[1..]);
      SortKeepsSorted(s[1..]);
      if |s| > 1 {
        assert InOrder(s[0], s[1..][0]);
      }
    }
  }
}

=== FILE: properties.dfy ===
/**
 * What `filter_stocks` promises across its paths: the pass-through when a
 * field is missing, the exact membership of the filtered report, the
 * relation of each candidate to its input row, and idempotence.
 */
module Properties {
  import opened Frame
  import opened Numeric
  import opened Columns
  import opened Stocks
  import opened Ordering
  import opened Strategy

  /**
   * When a numeric field cannot be resolved nothing is filtered: every row
   * comes back, in order, projected to code and name; without those two
   * columns the working copy comes back: the input with the parsed-count
   * column filled from the composite count when that is the count's column,
   * and the input itself otherwise.
   */
  lemma ShortCircuitKeepsEveryRow(t: Table)
    requires !IsEmpty(t)
    requires || Resolve(PriceCandidates, t.columns).None?
             || Resolve(CapCandidates, t.columns).None?
             || Resolve(DaysCandidates, t.columns).None?
             || Resolve(CountCandidates, t.columns).None?
    ensures CodeColumn in t.columns && NameColumn in t.columns ==>
      && FilterStocks(t).CodeAndName?
      && |FilterStocks(t).listings| == |t.rows|
      && forall i :: 0 <= i < |t.rows| ==>
           FilterStocks(t).listings[i] == Listing(Get(t.rows[i], CodeColumn), Get(t.rows[i], NameColumn))
    ensures CodeColumn !in t.columns || NameColumn !in t.columns ==>
      && FilterStocks(t).Unfiltered?
      && |FilterStocks(t).table.rows| == |t.rows|
      && (forall c :: c != ParsedCountColumn ==> (c in FilterStocks(t).table.columns <==> c in t.columns))
      && (forall i, c :: 0 <= i < |t.rows| && c != ParsedCountColumn ==>
            Get(FilterStocks(t).table.rows[i], c) == Get(t.rows[i], c))
      && FilterStocks(t) == Unfiltered(Prepare(t))
      && (Resolve(CountCandidates, t.columns) == Some(CompositeCountColumn) ==>
            forall i :: 0 <= i < |t.rows| ==>
              Get(FilterStocks(t).table.rows[i], ParsedCountColumn) ==
              Num(HalfYearCount(Get(t.rows[i], CompositeCountColumn)) as real))
      && (Resolve(CountCandidates, t.columns) != Some(CompositeCountColumn) ==> FilterStocks(t).table == t)
  {
  }

  /**
   * The filtered report is a permutation of exactly those candidates, one per
   * input row, that meet all five conditions: a candidate is listed if and
   * only if it qualifies, and as often as it occurs.
   */
  lemma ReportIsExactlyTheQualifying(t: Table)
    requires !IsEmpty(t) && Plan(t.columns).Some?
    requires CodeColumn in t.columns && NameColumn in t.columns
    ensures FilterStocks(t).Selected?
    ensures |Candidates(t, Plan(t.columns).value)| == |t.rows|
    ensures forall x :: (multiset(FilterStocks(t).stocks)[x] ==
                         if Qualifies(x) then multiset(Candidates(t, Plan(t.columns).value))[x] else 0)
    ensures forall i :: 0 <= i < |t.rows| ==>
      (Candidates(t, Plan(t.columns).value)[i] in FilterStocks(t).stocks <==>
       Qualifies(Candidates(t, Plan(t.columns).value)[i]))
  {
    var cands := Candidates(t, Plan(t.columns).value);
    var out := FilterStocks(t).stocks;
    forall i | 0 <= i < |t.rows|
      ensures cands[i] in out <==> Qualifies(cands[i])
    {
      assert cands[i] in multiset(cands);
      assert cands[i] in out <==> cands[i] in multiset(out);
    }
  }

  /**
   * Each candidate is its input row with the four fields coerced: the count
   * comes from the composite parser when the composite column was resolved,
   * and the capitalisation is divided by 1e8 exactly when some coerced
   * capitalisation of the table exceeds 1000. Nothing else changes.
   */
  lemma CandidateOfRow(t: Table, f: Fields, i: int)
    requires Plan(t.columns) == Some(f)
    requires 0 <= i < |t.rows|
    ensures |Candidates(t, f)| == |t.rows|
    ensures Candidates(t, f)[i].code == Get(t.rows[i], CodeColumn)
    ensures Candidates(t, f)[i].name == Get(t.rows[i], NameColumn)
    ensures Candidates(t, f)[i].price == ToNumeric(Get(t.rows[i], f.price))
    ensures Candidates(t, f)[i].days == ToNumeric(Get(t.rows[i], f.days))
    ensures Resolve(CountCandidates, t.columns) == Some(CompositeCountColumn) ==>
      Candidates(t, f)[i].count == Some(HalfYearCount(Get(t.rows[i], CompositeCountColumn)) as real)
    ensures Resolve(CountCandidates, t.columns) != Some(CompositeCountColumn) ==>
      Candidates(t, f)[i].count == ToNumeric(Get(t.rows[i], f.count))
    ensures (exists j :: 0 <= j < |t.rows| && ToNumeric(Get(t.rows[j], f.cap)).Some?
                         && ToNumeric(Get(t.rows[j], f.cap)).value > YuanThreshold) ==>
      Candidates(t, f)[i].cap ==
        match ToNumeric(Get(t.rows[i], f.cap)) case Some(c) => Some(c / YuanPerUnit) case None => None
    ensures (forall j :: 0 <= j < |t.rows| && ToNumeric(Get(t.rows[j], f.cap)).Some? ==>
                         ToNumeric(Get(t.rows[j], f.cap)).value <= YuanThreshold) ==>
      Candidates(t, f)[i].cap == ToNumeric(Get(t.rows[i], f.cap))
  {
    var data := Prepare(t);
    var raw := Coerce(data, f);
    assert f.price != ParsedCountColumn && f.cap != ParsedCountColumn && f.days != ParsedCountColumn;
    forall j | 0 <= j < |t.rows|
      ensures raw[j].cap == ToNumeric(Get(t.rows[j], f.cap))
    {
    }
  }

  /** The columns a filtered report is read back from. */
  const ReportFields: Fields := Fields(PriceLabel, CapLabel, DaysLabel, CountLabel)

  /** A filtered report's own columns resolve to its renamed labels, with no composite count. */
  lemma ReportColumnsResolve()
    ensures Resolve(CountCandidates, ReportColumns) == Some(CountLabel)
    ensures Plan(ReportColumns) == Some(ReportFields)
  {
    assert ReportColumns[2] == PriceCandidates[0];
    assert CapCandidates[0] !in ReportColumns && ReportColumns[3] == CapCandidates[1];
    assert DaysCandidates[0] !in ReportColumns && ReportColumns[4] == DaysCandidates[1];
    assert CountCandidates[0] !in ReportColumns && CountCandidates[1] !in ReportColumns;
    assert ReportColumns[5] == CountCandidates[2];
  }

  /** Reading a filtered report back through `to_numeric` gives back its stocks. */
  lemma ReportReadsBack(ss: seq<Stock>)
    ensures Coerce(AsTable(Selected(ss)), ReportFields) == ss
  {
    var u := AsTable(Selected(ss));
    forall i | 0 <= i < |ss|
      ensures StockOf(u.rows[i], ReportFields) == ss[i]
    {
      var x := ss[i];
      assert ToNumeric(AsCell(x.price)) == x.price;
      assert ToNumeric(AsCell(x.cap)) == x.cap;
      assert ToNumeric(AsCell(x.days)) == x.days;
      assert ToNumeric(AsCell(x.count)) == x.count;
    }
  }

  /** Assigning the parsed counts a second time changes nothing. */
  lemma ParsedCountsSettle(t: Table)
    ensures WithParsedCounts(WithParsedCounts(t)) == WithParsedCounts(t)
  {
    var once := WithParsedCounts(t);
    var twice := WithParsedCounts(once);
    forall i | 0 <= i < |t.rows|
      ensures twice.rows[i] == once.rows[i]
    {
      assert Get(once.rows[i], CompositeCountColumn) == Get(t.rows[i], CompositeCountColumn);
      assert twice.rows[i] == once.rows[i][ParsedCountColumn := ParsedCount(once.rows[i])];
      assert ParsedCountColumn in once.rows[i];
    }
  }

  /** A sorted sequence of qualifying stocks is its own candidates and its own report. */
  lemma QualifyingSortedIsFixed(ss: seq<Stock>)
    requires forall i :: 0 <= i < |ss| ==> Qualifies(ss[i])
    requires Sorted(ss)
    ensures NormalizeCaps(ss) == ss
    ensures Report(ss) == ss
  {
    SelectKeepsQualifying(ss);
    SortKeepsSorted(ss);
  }

  /** A non-empty sorted report of qualifying stocks filters to itself. */
  lemma ReportFiltersToItself(ss: seq<Stock>)
    requires |ss| > 0
    requires forall i :: 0 <= i < |ss| ==> Qualifies(ss[i])
    requires Sorted(ss)
    ensures FilterStocks(AsTable(Selected(ss))) == Selected(ss)
  {
    var u := AsTable(Selected(ss));
    ReportColumnsResolve();
    assert !IsEmpty(u);
    assert Prepare(u) == u;
    assert CodeColumn in u.columns && NameColumn in u.columns;
    ReportReadsBack(ss);
    assert Candidates(u, ReportFields) == NormalizeCaps(ss);
    QualifyingSortedIsFixed(ss);
  }

  /** A non-empty code-and-name projection filters to itself. */
  lemma ListingsFilterToThemselves(ls: seq<Listing>)
    requires |ls| > 0
    ensures FilterStocks(AsTable(CodeAndName(ls))) == CodeAndName(ls)
  {
    var u := AsTable(CodeAndName(ls));
    assert PriceCandidates[0] !in u.columns && PriceCandidates[1] !in u.columns && PriceCandidates[2] !in u.columns;
    assert Resolve(PriceCandidates, u.columns).None?;
    assert CountCandidates[0] !in u.columns;
    assert Prepare(u) == u;
    assert Listings(u) == ls;
  }

  /** The working copy returned for want of code and name filters to itself. */
  lemma WorkingCopyFiltersToItself(t: Table)
    requires !IsEmpty(t) && Plan(t.columns).None?
    requires CodeColumn !in t.columns || NameColumn !in t.columns
    ensures FilterStocks(Prepare(t)) == Unfiltered(Prepare(t))
  {
    var data := Prepare(t);
    ResolveSeesOnlyCandidates(PriceCandidates, t.columns, data.columns);
    ResolveSeesOnlyCandidates(CapCandidates, t.columns, data.columns);
    ResolveSeesOnlyCandidates(DaysCandidates, t.columns, data.columns);
    ResolveSeesOnlyCandidates(CountCandidates, t.columns, data.columns);
    if Resolve(CountCandidates, t.columns) == Some(CompositeCountColumn) {
      ParsedCountsSettle(t);
    }
    assert Prepare(data) == data;
  }

  /**
   * Filtering the table `filter_stocks` returned gives back the same table:
   * a filtered report is already sorted and qualifying, with capitalisations
   * below the rescaling threshold; a code-and-name projection and a returned
   * working copy still lack a numeric field.
   */
  lemma FilterIsIdempotent(t: Table)
    requires !FilterStocks(t).MissingKey?
    ensures !FilterStocks(AsTable(FilterStocks(t))).MissingKey?
    ensures AsTable(FilterStocks(AsTable(FilterStocks(t)))) == AsTable(FilterStocks(t))
  {
    match FilterStocks(t)
    case Selected(ss) =>
      if |ss| > 0 {
        ReportFiltersToItself(ss);
      }
    case CodeAndName(ls) =>
      if |ls| > 0 {
        ListingsFilterToThemselves(ls);
      }
    case Unfiltered(data) =>
      if !IsEmpty(t) {
        WorkingCopyFiltersToItself(t);
      }
  }
}

=== FILE: scenarios.dfy ===
/**
 * Concrete cases of the strategy's behaviour: the composite-count parser, the
 * unit normaliser, the report order, and whole-table runs.
 */
module Scenarios {
  import opened Frame
  import opened Numeric
  import opened Columns
  import opened Stocks
  import opened Ordering
  import opened Strategy
  import opened Properties

  /** "5/3" gives its half-year part 3. */
  lemma CompositeCountCase()
    ensures HalfYearCount(Text("5/3")) == 3
  {
    assert IntToText(3) == "3";
    HalfYearOfComposite("5", 3, "");
    assert "5" + "/" + "3" + "" == "5/3";
  }

  /** "12/3/1" gives 3: fields after the second are ignored. */
  lemma LongCompositeCountCase()
    ensures HalfYearCount(Text("12/3/1")) == 3
  {
    assert IntToText(3) == "3";
    HalfYearOfComposite("12", 3, "/1");
    assert "12" + "/" + "3" + "/1" == "12/3/1";
  }

  /** A plain "7" gives 7, "7.9" is truncated to 7 and -2.5 toward zero to -2. */
  lemma PlainCountCases()
    ensures HalfYearCount(Text("7")) == 7
    ensures HalfYearCount(Text("7.9")) == 7
    ensures HalfYearCount(Num(-2.5)) == -2
  {
    assert IntToText(7) == "7";
    HalfYearOfIntegerText(7);
    HalfYearOfDecimalText("", "7", "9");
    assert "" + "7" + "." + "9" == "7.9";
  }

  /** A missing cell and "abc" give the default 0. */
  lemma FailedCountCases()
    ensures HalfYearCount(Null) == 0
    ensures HalfYearCount(Text("abc")) == 0
  {
    assert !AllDigits("abc") by { assert !IsDigit("abc"[0]); }
    assert IndexOf("abc", '.') == 3;
  }

  /** "2/x" and "5/" give the default 0: their half-year part is no integer. */
  lemma FailedCompositeCases()
    ensures HalfYearCount(Text("2/x")) == 0
    ensures HalfYearCount(Text("5/")) == 0
  {
    assert IsForeign("x"[0]);
    HalfYearOfBadComposite("2", "x", "");
    assert "2" + "/" + "x" + "" == "2/x";
    HalfYearOfBadComposite("5", "", "");
    assert "5" + "/" + "" + "" == "5/";
  }

  // Each of the cases below holds for one literal text only. The text is a
  // parameter fixed by the precondition rather than written into the
  // postcondition, which keeps the verifier from evaluating every parser on
  // the literal eagerly.

  /** A bare sign is no number: "-" gives 0. */
  lemma BareSignCase(s: string)
    requires s == "-"
    ensures HalfYearCount(Text(s)) == 0
  {
    assert s[1..] == [];
  }

  /** A trailing sign spoils a number: "3-" gives 0. */
  lemma TrailingSignCase(s: string)
    requires s == "3-"
    ensures HalfYearCount(Text(s)) == 0
  {
    assert !UnsignedDecimal(s) by { assert !IsDigit(s[1]) && s[1] != '.'; }
  }

  /** Two decimal points spoil a number: "1.2.3" gives 0. */
  lemma TwoPointsCase(s: string)
    requires s == "1.2.3"
    ensures HalfYearCount(Text(s)) == 0
  {
    assert !UnsignedDecimal(s) by { assert s[1] == '.' && s[3] == '.'; }
  }

  /** Two signs spoil a number: "+-3" gives 0. */
  lemma TwoSignsCase(s: string)
    requires s == "+-3"
    ensures HalfYearCount(Text(s)) == 0
  {
    assert !UnsignedDecimal(s[1..]) by { assert s[1..][0] == '-'; }
  }

  /** `int()` reads the half-year part leniently: "5/03" gives 3. */
  lemma LeadingZeroCompositeCase(s: string)
    requires s == "5/03"
    ensures HalfYearCount(Text(s)) == 3
  {
    assert IntegerText("03");
    HalfYearOfCompositeText("5", "03", "");
    assert "5" + "/" + "03" + "" == s;
    ParseIntOfDigits("", "03");
    assert "" + "03" == "03";
  }

  /** An explicit plus sign is accepted: "5/+3" gives 3. */
  lemma PlusCompositeCase(s: string)
    requires s == "5/+3"
    ensures HalfYearCount(Text(s)) == 3
  {
    assert IntegerText("+3");
    HalfYearOfCompositeText("5", "+3", "");
    assert "5" + "/" + "+3" + "" == s;
    ParseIntOfDigits("+", "3");
    assert "+" + "3" == "+3";
  }

  /** A sign before the half-year part negates it: "5/-3" gives -3. */
  lemma MinusCompositeCase(s: string)
    requires s == "5/-3"
    ensures HalfYearCount(Text(s)) == -3
  {
    assert IntegerText("-3");
    HalfYearOfCompositeText("5", "-3", "");
    assert "5" + "/" + "-3" + "" == s;
    ParseIntOfDigits("-", "3");
    assert "-" + "3" == "-3";
  }

  /** A sign after the half-year part spoils it: "5/3-" gives 0. */
  lemma TrailingSignCompositeCase(s: string)
    requires s == "5/3-"
    ensures HalfYearCount(Text(s)) == 0
  {
    assert !IntegerText("3-") by { assert !IsDigit("3-"[1]); }
    HalfYearOfBadComposite("5", "3-", "");
    assert "5" + "/" + "3-" + "" == s;
  }

  /** A stock known only by its capitalisation. */
  function CapOnly(c: real): Stock
  {
    Stock(Null, Null, None, Some(c), None, None)
  }

  /** [50, 80, 120] is already in hundred-million yuan; [5e9, 8e9] is in yuan and becomes [50, 80]. */
  lemma NormalizeCases()
    ensures NormalizeCaps([CapOnly(50.0), CapOnly(80.0), CapOnly(120.0)])
         == [CapOnly(50.0), CapOnly(80.0), CapOnly(120.0)]
    ensures NormalizeCaps([CapOnly(5000000000.0), CapOnly(8000000000.0)]) == [CapOnly(50.0), CapOnly(80.0)]
  {
  }

  /** A stock known only by its three sort keys. */
  function Keyed(count: real, days: real, cap: real): Stock
  {
    Stock(Null, Null, None, Some(cap), Some(days), Some(count))
  }

  /**
   * (count, days, cap) = (5, 2, 50), (5, 2, 30), (3, 4, 10) are listed as
   * (5, 2, 30), (5, 2, 50), (3, 4, 10): the higher count first, the smaller
   * capitalisation breaking the tie on count and days.
   */
  lemma SortCase()
    ensures SortStocks([Keyed(5.0, 2.0, 50.0), Keyed(5.0, 2.0, 30.0), Keyed(3.0, 4.0, 10.0)])
         == [Keyed(5.0, 2.0, 30.0), Keyed(5.0, 2.0, 50.0), Keyed(3.0, 4.0, 10.0)]
  {
    var a, b, c := Keyed(5.0, 2.0, 50.0), Keyed(5.0, 2.0, 30.0), Keyed(3.0, 4.0, 10.0);
    assert [a, b, c][1..] == [b, c] && [b, c][1..] == [c] && [c][1..] == [];
    assert SortStocks([c]) == [c];
    assert InOrder(b, c) && SortStocks([b, c]) == [b, c];
    assert !InOrder(a, b) && InOrder(a, c);
    assert Insert(a, [c]) == [a, c];
    assert Insert(a, [b, c]) == [b, a, c];
  }

  /** A snapshot row as the provider delivers it: capitalisation in yuan, composite count text. */
  function SnapshotRow(code: string, price: real): Row
  {
    map["代码" := Text(code), "名称" := Text("样例"), "最新价" := Num(price),
        "总市值" := Num(5000000000.0), "连续涨停天数" := Num(1.0), "涨停统计" := Text("5/3")]
  }

  /** A snapshot row of a table that has no market-cap column. */
  function CaplessRow(code: string, price: real): Row
  {
    map["代码" := Text(code), "名称" := Text("样例"), "最新价" := Num(price),
        "连续涨停天数" := Num(1.0), "涨停统计" := Text("5/3")]
  }

  const SnapshotColumns: seq<string> := ["代码", "名称", "最新价", "总市值", "连续涨停天数", "涨停统计"]

  const SnapshotFields: Fields := Fields("最新价", "总市值", "连续涨停天数", ParsedCountColumn)

  const FirstPick: Stock := Stock(Text("600001"), Text("样例"), Some(12.5), Some(50.0), Some(1.0), Some(3.0))

  /** The snapshot resolves every field on its first candidate, the count through the composite parser. */
  lemma SnapshotResolves(t: Table)
    requires t == Table(SnapshotColumns, [SnapshotRow("600001", 12.5), SnapshotRow("600002", 45.0)])
    ensures Plan(t.columns) == Some(SnapshotFields)
    ensures Resolve(CountCandidates, t.columns) == Some(CompositeCountColumn)
    ensures FilterStocks(t).Selected?
  {
  }

  /** The cells of the snapshot the filter reads. */
  lemma SnapshotCells(t: Table)
    requires t == Table(SnapshotColumns, [SnapshotRow("600001", 12.5), SnapshotRow("600002", 45.0)])
    ensures Get(t.rows[0], CodeColumn) == Text("600001") && Get(t.rows[0], NameColumn) == Text("样例")
    ensures Get(t.rows[0], SnapshotFields.price) == Num(12.5) && Get(t.rows[1], SnapshotFields.price) == Num(45.0)
    ensures Get(t.rows[0], SnapshotFields.cap) == Num(5000000000.0) && Get(t.rows[0], SnapshotFields.days) == Num(1.0)
    ensures Get(t.rows[0], CompositeCountColumn) == Text("5/3")
  {
  }

  /** The first snapshot row qualifies once its capitalisation is rescaled. */
  lemma SnapshotFirstCandidate(t: Table)
    requires t == Table(SnapshotColumns, [SnapshotRow("600001", 12.5), SnapshotRow("600002", 45.0)])
    requires Plan(t.columns) == Some(SnapshotFields)
    requires Resolve(CountCandidates, t.columns) == Some(CompositeCountColumn)
    ensures |Candidates(t, SnapshotFields)| == 2
    ensures Candidates(t, SnapshotFields)[0] == FirstPick
    ensures Qualifies(FirstPick)
  {
    SnapshotCells(t);
    CompositeCountCase();
    CandidateOfRow(t, SnapshotFields, 0);
  }

  /** The second snapshot row is priced out. */
  lemma SnapshotSecondCandidate(t: Table)
    requires t == Table(SnapshotColumns, [SnapshotRow("600001", 12.5), SnapshotRow("600002", 45.0)])
    requires Plan(t.columns) == Some(SnapshotFields)
    ensures |Candidates(t, SnapshotFields)| == 2
    ensures !Qualifies(Candidates(t, SnapshotFields)[1])
  {
    SnapshotCells(t);
    CandidateOfRow(t, SnapshotFields, 1);
  }

  /**
   * Two first-board stocks, one priced 12.5 and one priced 45: only the first
   * is reported, with its capitalisation in hundred-million yuan and its
   * half-year count parsed out of "5/3".
   */
  lemma SnapshotCase(t: Table)
    requires t == Table(SnapshotColumns, [SnapshotRow("600001", 12.5), SnapshotRow("600002", 45.0)])
    ensures FilterStocks(t).Selected?
    ensures FilterStocks(t).stocks == [FirstPick]
  {
    SnapshotResolves(t);
    SnapshotFirstCandidate(t);
    SnapshotSecondCandidate(t);
    ReportIsExactlyTheQualifying(t);
    var cands := Candidates(t, SnapshotFields);
    OnlyQualifierRemains(cands, FilterStocks(t).stocks);
  }

  /** Of two candidates of which only the first qualifies, the report holds the first alone. */
  lemma OnlyQualifierRemains(cands: seq<Stock>, out: seq<Stock>)
    requires |cands| == 2 && Qualifies(cands[0]) && !Qualifies(cands[1])
    requires forall x :: multiset(out)[x] == if Qualifies(x) then multiset(cands)[x] else 0
    ensures out == [cands[0]]
  {
    assert cands == [cands[0], cands[1]];
    assert multiset(out) == multiset{cands[0]};
    assert |out| == |multiset(out)| == 1;
    assert out[0] in multiset(out);
  }

  /**
   * Without any capitalisation column nothing is filtered, against the
   * "condition always true" fallback the filter mask appears to provide: both
   * rows come back as code and name, the overpriced one included.
   */
  lemma MissingCapCase(t: Table)
    requires t == Table(["代码", "名称", "最新价", "连续涨停天数", "涨停统计"],
                        [CaplessRow("600001", 12.5), CaplessRow("600002", 45.0)])
    ensures FilterStocks(t).CodeAndName?
    ensures |FilterStocks(t).listings| == 2
    ensures FilterStocks(t).listings[0] == Listing(Text("600001"), Text("样例"))
    ensures FilterStocks(t).listings[1] == Listing(Text("600002"), Text("样例"))
  {
    assert !IsEmpty(t);
    assert CapCandidates[0] !in t.columns && CapCandidates[1] !in t.columns && CapCandidates[2] !in t.columns;
    assert Resolve(CapCandidates, t.columns).None?;
    assert t.columns[0] == CodeColumn && t.columns[1] == NameColumn;
    assert Get(t.rows[0], CodeColumn) == Text("600001") && Get(t.rows[0], NameColumn) == Text("样例");
    assert Get(t.rows[1], CodeColumn) == Text("600002") && Get(t.rows[1], NameColumn) == Text("样例");
    ShortCircuitKeepsEveryRow(t);
  }
}

=== FILE: stocks.dfy ===
/**
 * A limit-up stock reduced to the columns the strategy keeps, the unit
 * normalisation of its market capitalisation, and the five-way filter.
 */
module Stocks {
  import opened Frame

  /**
   * One row after coercion: code and name as they were, the four numeric
   * fields as numbers, with None for NaN (a missing or unparseable cell).
   */
  datatype Stock = Stock(
    code: Cell,
    name: Cell,
    price: Option<real>,
    cap: Option<real>,
    days: Option<real>,
    count: Option<real>)

  /** Price ceiling, in yuan. */
  const PriceLimit: real := 30.0
  /** Market-capitalisation ceiling, in hundred-million yuan. */
  const CapLimit: real := 200.0
  /** Fewest limit-ups over the last half year. */
  const MinCount: real := 3.0
  /** Streaks of this many days or more are excluded. */
  const DaysLimit: real := 4.0
  /** A first board: a streak of exactly one day. */
  const FirstBoard: real := 1.0
  /** A capitalisation column whose largest value exceeds this is taken to be in yuan. */
  const YuanThreshold: real := 1000.0
  /** Yuan in one hundred-million yuan. */
  const YuanPerUnit: real := 100000000.0

  /**
   * The five conditions, all required. A NaN field fails every comparison, so
   * a stock with a missing field never qualifies. `days < 4` is implied by
   * `days == 1` but is kept, as the strategy applies both.
   */
  predicate Qualifies(x: Stock): (q: bool)
    ensures q ==> x.price.Some? && x.cap.Some? && x.count.Some? && x.days == Some(FirstBoard)
  {
    && x.price.Some? && x.price.value < PriceLimit
    && x.cap.Some? && x.cap.value < CapLimit
    && x.count.Some? && x.count.value >= MinCount
    && x.days.Some? && x.days.value < DaysLimit
    && x.days.Some? && x.days.value == FirstBoard
  }

  /**
   * The five conditions come to four: a qualifying stock is a first board that
   * is priced under 30, capitalised under 200 and limit-up at least three times.
   */
  lemma QualifiesAsFirstBoard(x: Stock)
    ensures Qualifies(x) <==>
      && x.price.Some? && x.price.value < 30.0
      && x.cap.Some? && x.cap.value < 200.0
      && x.count.Some? && x.count.value >= 3.0
      && x.days == Some(1.0)
  {
  }

  /** pandas' `Series.max()` over the capitalisations: NaN is skipped, all-NaN gives NaN. */
  function MaxCap(s: seq<Stock>): (m: Option<real>)
    ensures m.None? <==> forall i :: 0 <= i < |s| ==> s[i].cap.None?
    ensures m.Some? ==> exists i :: 0 <= i < |s| && s[i].cap == m
    ensures m.Some? ==> forall i :: 0 <= i < |s| && s[i].cap.Some? ==> s[i].cap.value <= m.value
  {
    if |s| == 0 then
      None
    else
      var rest := MaxCap(s[1..]);
      assert forall i :: 1 <= i < |s| ==> s[i] == s[1..][i - 1];
      match s[0].cap
      case None => rest
      case Some(c) => if rest.Some? && rest.value > c then rest else Some(c)
  }

  /** One stock with its capitalisation converted from yuan to hundred-million yuan. */
  function InHundredMillions(x: Stock): Stock
  {
    x.(cap := match x.cap case Some(c) => Some(c / YuanPerUnit) case None => None)
  }

  /**
   * Unit normalisation: when the largest known capitalisation exceeds 1000, the
   * whole column is divided by 1e8, NaN staying NaN; otherwise, including when
   * every capitalisation is NaN, nothing changes.
   */
  function NormalizeCaps(s: seq<Stock>): (r: seq<Stock>)
    ensures |r| == |s|
    ensures (exists i :: 0 <= i < |s| && s[i].cap.Some? && s[i].cap.value > YuanThreshold) ==>
      forall i :: 0 <= i < |s| ==>
        && r[i].code == s[i].code && r[i].name == s[i].name
        && r[i].price == s[i].price && r[i].days == s[i].days && r[i].count == s[i].count
        && (s[i].cap.None? ==> r[i].cap.None?)
        && (s[i].cap.Some? ==> r[i].cap == Some(s[i].cap.value / YuanPerUnit))
    ensures (forall i :: 0 <= i < |s| && s[i].cap.Some? ==> s[i].cap.value <= YuanThreshold) ==> r == s
  {
    var m := MaxCap(s);
    if m.Some? && m.value > YuanThreshold then
      seq(|s|, i requires 0 <= i < |s| => InHundredMillions(s[i]))
    else
      s
  }

  /** The boolean mask applied: the qualifying stocks, in their original order. */
  function Select(s: seq<Stock>): (r: seq<Stock>)
    ensures |r| <= |s|
    ensures forall i :: 0 <= i < |r| ==> Qualifies(r[i])
    ensures forall x :: multiset(r)[x] == if Qualifies(x) then multiset(s)[x] else 0
  {
    if |s| == 0 then
      []
    else
      assert s == [s[0]] + s[1..];
      var rest := Select(s[1..]);
      if Qualifies(s[0]) then [s[0]] + rest else rest
  }

  /** A sequence of qualifying stocks passes the mask whole. */
  lemma {:induction false} SelectKeepsQualifying(s: seq<Stock>)
    requires forall i :: 0 <= i < |s| ==> Qualifies(s[i])
    ensures Select(s) == s
  {
    if |s| > 0 {
      SelectKeepsQualifying(s[1..]);
    }
  }
}

=== FILE: strategy.dfy ===
/**
 * `filter_stocks`: reconcile the columns of a limit-up snapshot, parse the
 * composite count, coerce and normalise the numbers, keep the stocks meeting
 * the five conditions, and list them in report order.
 */
module Strategy {
  import opened Frame
  import opened Numeric
  import opened Columns
  import opened Stocks
  import opened Ordering

  /** Labels of the filtered report's columns, after the rename. */
  const PriceLabel: string := "最新价"
  const CapLabel: string := "总市值(亿)"
  const DaysLabel: string := "连板数"
  const CountLabel: string := "近半年涨停次数"
  const ReportColumns: seq<string> := [CodeColumn, NameColumn, PriceLabel, CapLabel, DaysLabel, CountLabel]

  /** A row projected to code and name only. */
  datatype Listing = Listing(code: Cell, name: Cell)

  /** What `filter_stocks` returns, or the exception it raises. */
  datatype Outcome =
      /** A table returned as it stands. */
    | Unfiltered(table: Table)
      /** Every row, projected to code and name, when a numeric field cannot be resolved. */
    | CodeAndName(listings: seq<Listing>)
      /** The qualifying stocks in report order, under the report's column labels. */
    | Selected(stocks: seq<Stock>)
      /** pandas' KeyError: the code or the name column is missing when the report is projected. */
    | MissingKey

  /** The columns the four numeric fields are read from. */
  datatype Fields = Fields(price: string, cap: string, days: string, count: string)

  /** The column the half-year count is read from: the parsed column stands in for the composite one. */
  function CountSource(columns: seq<string>): Option<string>
  {
    match Resolve(CountCandidates, columns)
    case None => None
    case Some(c) => if c == CompositeCountColumn then Some(ParsedCountColumn) else Some(c)
  }

  /** The four resolved columns, or None when any field has no candidate present. */
  function Plan(columns: seq<string>): (p: Option<Fields>)
    ensures p.None? <==>
      || Resolve(PriceCandidates, columns).None?
      || Resolve(CapCandidates, columns).None?
      || Resolve(DaysCandidates, columns).None?
      || Resolve(CountCandidates, columns).None?
    ensures p.Some? ==> Some(p.value.price) == Resolve(PriceCandidates, columns)
    ensures p.Some? ==> Some(p.value.cap) == Resolve(CapCandidates, columns)
    ensures p.Some? ==> Some(p.value.days) == Resolve(DaysCandidates, columns)
    ensures p.Some? && Resolve(CountCandidates, columns) == Some(CompositeCountColumn) ==>
      p.value.count == ParsedCountColumn
    ensures p.Some? && Resolve(CountCandidates, columns) != Some(CompositeCountColumn) ==>
      Some(p.value.count) == Resolve(CountCandidates, columns)
  {
    match (Resolve(PriceCandidates, columns), Resolve(CapCandidates, columns),
           Resolve(DaysCandidates, columns), CountSource(columns))
    case (Some(p), Some(c), Some(d), Some(n)) => Some(Fields(p, c, d, n))
    case _ => None
  }

  /** The half-year count parsed out of the composite column of one row. */
  function ParsedCount(row: Row): Cell
  {
    Num(HalfYearCount(Get(row, CompositeCountColumn)) as real)
  }

  /**
   * The copy with the parsed-count column assigned: a new column, or an
   * overwritten one if the table already had it. Nothing else changes.
   */
  function WithParsedCounts(t: Table): (r: Table)
    ensures ParsedCountColumn in r.columns
    ensures forall c :: c in r.columns <==> c in t.columns || c == ParsedCountColumn
    ensures |r.rows| == |t.rows|
    ensures forall i :: 0 <= i < |t.rows| ==>
      Get(r.rows[i], ParsedCountColumn) == Num(HalfYearCount(Get(t.rows[i], CompositeCountColumn)) as real)
    ensures forall i, c :: 0 <= i < |t.rows| && c != ParsedCountColumn ==> Get(r.rows[i], c) == Get(t.rows[i], c)
  {
    Table(if ParsedCountColumn in t.columns then t.columns else t.columns + [ParsedCountColumn],
          seq(|t.rows|, i requires 0 <= i < |t.rows| => t.rows[i][ParsedCountColumn := ParsedCount(t.rows[i])]))
  }

  /** The working copy `data`: with parsed counts exactly when the count resolves to the composite column. */
  function Prepare(t: Table): (data: Table)
    ensures |data.rows| == |t.rows|
    ensures forall c :: c != ParsedCountColumn ==> (c in data.columns <==> c in t.columns)
    ensures forall i, c :: 0 <= i < |t.rows| && c != ParsedCountColumn ==> Get(data.rows[i], c) == Get(t.rows[i], c)
    ensures ParsedCountColumn in data.columns <==>
      ParsedCountColumn in t.columns || Resolve(CountCandidates, t.columns) == Some(CompositeCountColumn)
    ensures Resolve(CountCandidates, t.columns) == Some(CompositeCountColumn) ==>
      forall i :: 0 <= i < |t.rows| ==>
        Get(data.rows[i], ParsedCountColumn) == Num(HalfYearCount(Get(t.rows[i], CompositeCountColumn)) as real)
    ensures Resolve(CountCandidates, t.columns) != Some(CompositeCountColumn) ==> data == t
  {
    if Resolve(CountCandidates, t.columns) == Some(CompositeCountColumn) then WithParsedCounts(t) else t
  }

  /**
   * One row with its four numeric fields coerced by `to_numeric`: code and
   * name as they are, a field whose column the row lacks as NaN, and a text
   * field as a number exactly when it is decimal text.
   */
  function StockOf(row: Row, f: Fields): (x: Stock)
    ensures x.code == Get(row, CodeColumn) && x.name == Get(row, NameColumn)
    ensures f.price !in row ==> x.price.None?
    ensures f.cap !in row ==> x.cap.None?
    ensures f.days !in row ==> x.days.None?
    ensures f.count !in row ==> x.count.None?
    ensures f.price in row && row[f.price].Text? ==> (x.price.Some? <==> DecimalText(row[f.price].s))
    ensures f.cap in row && row[f.cap].Text? ==> (x.cap.Some? <==> DecimalText(row[f.cap].s))
    ensures f.days in row && row[f.days].Text? ==> (x.days.Some? <==> DecimalText(row[f.days].s))
    ensures f.count in row && row[f.count].Text? ==> (x.count.Some? <==> DecimalText(row[f.count].s))
  {
    Stock(Get(row, CodeColumn), Get(row, NameColumn),
          ToNumeric(Get(row, f.price)), ToNumeric(Get(row, f.cap)),
          ToNumeric(Get(row, f.days)), ToNumeric(Get(row, f.count)))
  }

  function Coerce(t: Table, f: Fields): seq<Stock>
  {
    seq(|t.rows|, i requires 0 <= i < |t.rows| => StockOf(t.rows[i], f))
  }

  function Listings(t: Table): seq<Listing>
  {
    seq(|t.rows|, i requires 0 <= i < |t.rows| => Listing(Get(t.rows[i], CodeColumn), Get(t.rows[i], NameColumn)))
  }

  /** The stocks the mask is applied to: every input row, coerced and unit-normalised. */
  function Candidates(t: Table, f: Fields): (r: seq<Stock>)
    ensures |r| == |t.rows|
    ensures forall i :: 0 <= i < |t.rows| ==>
      r[i].code == Get(t.rows[i], CodeColumn) && r[i].name == Get(t.rows[i], NameColumn)
  {
    NormalizeCaps(Coerce(Prepare(t), f))
  }

  /**
   * The mask, then the sort: exactly the qualifying candidates, each as many
   * times as it occurs, in report order.
   */
  function Report(candidates: seq<Stock>): (r: seq<Stock>)
    ensures forall i :: 0 <= i < |r| ==> Qualifies(r[i])
    ensures forall x :: multiset(r)[x] == if Qualifies(x) then multiset(candidates)[x] else 0
    ensures Sorted(r)
  {
    var kept := Select(candidates);
    var r := SortStocks(kept);
    assert forall i :: 0 <= i < |r| ==> Qualifies(r[i]) by {
      forall i | 0 <= i < |r| ensures Qualifies(r[i]) {
        assert r[i] in multiset(r);
        assert r[i] in multiset(kept);
        var k :| 0 <= k < |kept| && kept[k] == r[i];
      }
    }
    r
  }

  /** `filter_stocks`. */
  function FilterStocks(t: Table): (r: Outcome)
    ensures IsEmpty(t) ==> r == Unfiltered(t)
    ensures r.MissingKey? <==>
      !IsEmpty(t) && Plan(t.columns).Some? && (CodeColumn !in t.columns || NameColumn !in t.columns)
    ensures r.Selected? ==> forall i :: 0 <= i < |r.stocks| ==>
      && r.stocks[i].price.Some? && r.stocks[i].price.value < 30.0
      && r.stocks[i].cap.Some? && r.stocks[i].cap.value < 200.0
      && r.stocks[i].count.Some? && r.stocks[i].count.value >= 3.0
      && r.stocks[i].days.Some? && r.stocks[i].days.value < 4.0
      && r.stocks[i].days.value == 1.0
    ensures r.Selected? ==> Sorted(r.stocks)
  {
    if IsEmpty(t) then
      Unfiltered(t)
    else
      var data := Prepare(t);
      match Plan(t.columns)
      case None =>
        if CodeColumn in data.columns && NameColumn in data.columns then
          CodeAndName(Listings(data))
        else
          Unfiltered(data)
      case Some(f) =>
        if CodeColumn !in data.columns || NameColumn !in data.columns then
          MissingKey
        else
          Selected(Report(Candidates(t, f)))
  }

  /** A number as a cell of a data frame, NaN as a missing cell. */
  function AsCell(v: Option<real>): Cell
  {
    match v
    case Some(x) => Num(x)
    case None => Null
  }

  /** One stock as a row of the filtered report, under the renamed labels. */
  function ReportRow(x: Stock): (row: Row)
    ensures forall c :: c in row <==> c in ReportColumns
    ensures row[CodeColumn] == x.code && row[NameColumn] == x.name
    ensures row[PriceLabel].Null? <==> x.price.None?
    ensures row[CapLabel].Null? <==> x.cap.None?
    ensures row[DaysLabel].Null? <==> x.days.None?
    ensures row[CountLabel].Null? <==> x.count.None?
  {
    map[CodeColumn := x.code, NameColumn := x.name,
        PriceLabel := AsCell(x.price), CapLabel := AsCell(x.cap),
        DaysLabel := AsCell(x.days), CountLabel := AsCell(x.count)]
  }

  /** The data frame an outcome stands for; an exception stands for none. */
  function AsTable(o: Outcome): (t: Table)
    requires !o.MissingKey?
    ensures o.Selected? ==> t.columns == ReportColumns && |t.rows| == |o.stocks|
    ensures o.Selected? ==> forall i, c :: 0 <= i < |t.rows| ==> (c in t.rows[i] <==> c in ReportColumns)
    ensures o.CodeAndName? ==> t.columns == [CodeColumn, NameColumn] && |t.rows| == |o.listings|
    ensures o.CodeAndName? ==> forall i :: 0 <= i < |t.rows| ==>
      Get(t.rows[i], CodeColumn) == o.listings[i].code && Get(t.rows[i], NameColumn) == o.listings[i].name
    ensures o.Unfiltered? ==> t == o.table
  {
    match o
    case Unfiltered(t) => t
    case CodeAndName(ls) =>
      Table([CodeColumn, NameColumn],
            seq(|ls|, i requires 0 <= i < |ls| => map[CodeColumn := ls[i].code, NameColumn := ls[i].name]))
    case Selected(ss) =>
      Table(ReportColumns, seq(|ss|, i requires 0 <= i < |ss| => ReportRow(ss[i])))
  }
}
